=== FILE: README.md ===
# PythonPhotoEditor core, modelled in Dafny

PythonPhotoEditor is a one-file Tkinter/PIL image editor (`hello.py`). This
project models the logic inside its widget wiring as pure state transitions
over an abstract image (a width, a height, a pixel mode and opaque pixels):

- **Snapshot history** (`History`): a sequence of snapshots and a current
  index. A commit drops the redo branch, appends and advances. Undo and redo
  move by one and stop at the ends. Opening a file resets the history to one
  snapshot.
- **Coordinate mapping** (`Display`): the scale ratio is the smaller axis
  ratio capped at 1, and the displayed size is `int(dim * scale)`. The centring
  offset is `(canvas - shown) // 2`. `to_original_coords` returns `None` off the
  displayed image and `int(rel / scale)` on it. Markers are drawn at
  `int(orig * scale) + offset`. The scale is an exact `real`, and `int()` is
  truncation toward zero.
- **Edit operations** (`Editor`): adding a point, the polygon fill bracketed
  by two commits, saturation recomputed from the current snapshot, the trim
  selection (press, drag, release, with the 10-pixel minimum), and the crop
  with point rebasing (`Geometry.Rebase`).
- **Two-mode state machine** (`Editor.Step`): Normal and Trimming, with the
  trimming button as the only way between them. `Editor.Step` is the
  corrected machine: its trimming button crops only a selection of at least
  10 pixels each way (see "Findings"). `Editor.StepAsWritten` is the machine
  exactly as the code has it, and differs only in that button.
- **Save dispatch** (`SaveTarget`): the lower-cased path's extension picks
  PNG (level 6), JPEG (only with a quality answer; RGBA flattened first) or
  HEIC. Any other name gets `.png` appended and is written as PNG.

Exceptions the original raises inside a handler are modelled where they
matter. The redraw divides by the image size, so for an image with a zero
dimension `Editor.Refresh` returns `None`. The handler then keeps the state it
had reached: `execute_trimming` and `load_image` catch the error, and the other
handlers abort. A click before the first redraw raises. A press in Trimming
mode has already cleared the selection by then, and every other handler
raises before any change. In each case the effect is that of a click off the
image, so `Editor.MapClick` returns `None` for it.

Three behaviours of the code worth knowing; the model follows the code:

- The crop keeps a point on the right or bottom edge of the selection, whose
  rebased coordinate equals the new width or height.
- On a 2000x1000 image in a 1000x500 canvas, the canvas point (500,250) maps to
  image pixel (1000,500) and back (`Display.HalfScaleScenario`).
- Opening a file keeps the mode, the trim selection and the unsaved flag.

One behaviour is proved but not called a bug. A fill commits the working image,
which already carries the saturation. Undo then applies the saturation to that
snapshot again (`EditorProperties.FillThenUndo`).

## Model

| member | source | states |
|---|---|---|
| Geometry.BoxFromCorners | hello.py:273-277 | the crop box contains both corners, each edge is one of the corners' coordinates, and its size is the absolute corner difference |
| Geometry.Rebase | hello.py:299-311 | rebasing never adds points and every kept point lies in `[0,width] x [0,height]` of the box, edges included |
| Geometry.RebaseMembership | hello.py:302-308 | a point is in the result exactly when it is the shift of some original point inside the inclusive box |
| Geometry.RebaseAppend | hello.py:300-311 | rebasing distributes over concatenation, so kept points keep their click order |
| Geometry.RebaseKeepsAllIff | hello.py:302-311 | no point is dropped exactly when every point lies inside the box |
| Geometry.AdjustPoints | hello.py:300-311 | the adjustment loop computes the rebased point list |
| Imaging.FillPolygon | hello.py:599 | drawing the polygon keeps the image size and mode |
| Imaging.Crop | hello.py:289 | the crop is `(right-left) x (bottom-top)` in the same mode |
| Imaging.Enhance | hello.py:510-511 | enhancement keeps size and mode, and factor 1.0 returns the image unchanged |
| Imaging.ModeOf | hello.py:679 | a mode name maps to RGBA exactly when it is "RGBA", so the save path's RGBA test is a test of the name |
| Imaging.ToRgb | hello.py:679-680 | the RGB conversion keeps the size and yields mode RGB |
| History.Empty | hello.py:16-17 | the initial history is empty with index -1, ready for a first commit |
| History.Reset | hello.py:359-360 | after opening, the history holds just the image, current, with nothing to undo or redo |
| History.Push | hello.py:280-282 | a commit keeps the prefix up to the old index, appends the snapshot as current at index+1, and leaves nothing to redo |
| History.Undo | hello.py:620-621 | undo keeps the snapshots, moves back exactly one, and is a no-op at index 0 |
| History.Redo | hello.py:637-638 | redo keeps the snapshots, moves forward exactly one, and is a no-op at the last index |
| History.PushAllShape | hello.py:594-604 | after n commits the history is the kept prefix followed by the n snapshots, with the index advanced by n |
| History.UndoAfterPushes | hello.py:594-622 | one undo after a run of commits shows the snapshot current before the last commit |
| History.RedoAfterPushIsNoOp | hello.py:280-282 | redo right after a commit changes nothing |
| History.UndoRedoInverse | hello.py:616-648 | undo then redo, or redo then undo, restores the history whenever the first moved |
| History.CommitPair | hello.py:592-604 | a bracketed commit appends pre and post snapshots after the prefix; undo shows pre and redo does nothing |
| Display.Trunc | hello.py:547-548 | `int()` truncates toward zero: within one of the real value, not beyond it |
| Display.Offset | hello.py:530-531 | the centring offset is the floor of half the free space |
| Display.FitRatio | hello.py:397-403 | the scale is in (0,1], the scaled image fits the canvas, and it is 1 or fills one axis exactly |
| Display.ComputeView | hello.py:384-413 | a redraw is deferred exactly when the canvas is at most 1 px, fails exactly on a zero-size image, and otherwise shows the truncated scaled size at the fitting ratio, which is non-negative and fits the canvas |
| Display.ToCanvas | hello.py:451-454 | a marker coordinate, less the centring offset, is the scaled image coordinate truncated: non-negative, at most the scaled value and within one below it |
| Display.MarkerOnDisplay | hello.py:451-454 | the marker of a pixel of the image lands on the displayed image or on its right or bottom edge |
| Display.ToOriginal | hello.py:523-550 | the mapping returns None exactly off the displayed image, and otherwise non-negative coordinates |
| Display.MappedPointInImage | hello.py:534-550 | for a view of a `w x h` image, a mapped point lies in `[0,w) x [0,h)` |
| Display.RoundTrip | hello.py:451-454 | a mapped click drawn back lands on the click or one pixel up/left of it, and exactly on it at scale 1 |
| Display.HalfScaleScenario | hello.py:397-413 | a 2000x1000 image in a 1000x500 canvas is shown at 0.5; (500,250) maps to (1000,500) and back |
| Display.ProjectPoints | hello.py:450-455 | the marker loop yields one marker per point, in order, each the canvas image of its point |
| SaveTarget.Lower | hello.py:664 | lower-casing keeps the length and lowers each ASCII letter |
| SaveTarget.Dispatch | hello.py:663-692 | the first matching lower-case extension picks the plan: PNG level 6 under the path, JPEG only with a quality (flattened exactly for RGBA), HEIC, else PNG at `path + ".png"` |
| SaveTarget.Written | hello.py:677-687 | the encoder gets the RGB conversion of the image when the plan flattens, with the same size, and the image itself otherwise |
| SaveTarget.JpegWriteIsNeverRgba | hello.py:663-692 | a JPEG write never hands an RGBA image to the encoder, and every other write hands over the image unchanged |
| SaveTarget.DispatchIgnoresCase | hello.py:664-688 | paths equal up to letter case get the same format |
| SaveTarget.FallbackNameIsPng | hello.py:690-692 | the fallback file name is itself recognised as PNG |
| SaveTarget.UpperCaseJpegScenario | hello.py:666-687 | `photo.JPG` is written as JPEG under its own name, flattened for RGBA, and nothing is written when the prompt is cancelled |
| SaveTarget.UnknownExtensionScenario | hello.py:690-692 | `notes.txt` is written as PNG to `notes.txt.png` |
| Editor.Init | hello.py:15-29 | the editor starts in Normal mode with no image, an empty history at index -1, saturation 1 and nothing unsaved |
| Editor.Refresh | hello.py:379-413 | a redraw changes only the view, fails exactly on a zero-size image, and leaves a view fitting the current image |
| Editor.MapClick | hello.py:586-590 | a click maps exactly when it is on the displayed image, and then to a pixel of the image the view was drawn for |
| Editor.Load | hello.py:345-377 | a failed decode changes nothing; a successful one resets the history to the image, clears the points, sets saturation 1, and keeps the mode, selection and unsaved flag |
| Editor.AddPoint | hello.py:552-569 | with an image, a click on it appends its pixel to the points, a pixel inside the image when the view is that image's; otherwise nothing changes |
| Editor.Fill | hello.py:579-614 | without an image, off the image, or with at most 2 points nothing changes; otherwise the history becomes the prefix plus pre-fill and filled snapshots, index at the end, nothing to redo, and the points cleared unless the redraw raises |
| Editor.Reapply | hello.py:624-627 | skipping the enhancer at 1.0 is the same as applying it |
| Editor.Undo | hello.py:616-631 | undo keeps snapshots and points, is a no-op at index 0, and otherwise shows the previous snapshot under the saturation |
| Editor.Redo | hello.py:633-648 | redo keeps snapshots and points, is a no-op at the last index, and otherwise shows the next snapshot under the saturation |
| Editor.SetSaturation | hello.py:498-521 | the slider never commits and derives the image from the current snapshot, restoring it at 1.0 |
| Editor.ResetTrim | hello.py:260-266 | forgetting the selection clears both corners and changes nothing else |
| Editor.TooSmall | hello.py:249-252 | a selection is too small exactly when the crop box it spans is under 10 px wide or high |
| Editor.StartTrim | hello.py:180-205 | a press clears any old selection and, on the image, starts a new one with both corners at the pixel |
| Editor.UpdateTrim | hello.py:207-234 | a drag moves only the end corner, and only with a started selection and the pointer on the image |
| Editor.EndTrim | hello.py:236-258 | a release off the image is ignored; on it a selection under 10 px on either axis is cleared, otherwise the end corner is recorded |
| Editor.ExecuteTrimming | hello.py:268-325 | the crop commits the current image and a `|dx| x |dy|` crop after the prefix, rebases the points onto the box, and sets the unsaved flag unless the redraw failed |
| Editor.ToggleTrimmingAsWritten | hello.py:141-178 | the button flips the mode; leaving Trimming with both corners set commits the current image and its crop to the normalised box after the prefix, shows the crop and rebases the points onto the box; without both corners only the mode changes and the selection is forgotten; it always ends with no selection |
| Editor.ToggleTrimming | hello.py:141-178 | as above, but a selection under 10 px crops nothing (only the mode changes and the selection is forgotten), and any crop is at least 10x10 |
| Editor.Step | hello.py:131-178 | the corrected two-mode dispatch keeps the handlers' well-formedness, the trimming button is the only event that changes the mode, and leaving Trimming forgets the selection |
| Editor.StepAsWritten | hello.py:131-178 | the dispatch as written has the same mode rules, and agrees with the corrected one on every event but the trimming button |
| Editor.Save | hello.py:650-702 | saving changes only the unsaved flag, which clears after any branch that does not raise, including a cancelled JPEG prompt |
| Editor.Resize | hello.py:481-496 | a resize changes only the canvas size and the view |
| EditorProperties.StepPreservesValid | hello.py:141-178 | every event of the corrected machine keeps the invariant: no selection in Normal mode, a valid history index, every image with pixels |
| EditorProperties.StepAsWrittenKeepsSelectionRule | hello.py:141-178 | every event of the machine as written keeps the handlers' well-formedness and the rule that a selection exists only in Trimming mode |
| EditorProperties.FillThenRedoIsNoOp | hello.py:592-604 | redo after a fill changes nothing |
| EditorProperties.FillThenUndo | hello.py:592-627 | one undo after a fill shows the pre-fill snapshot with the saturation applied again |
| EditorProperties.UndoThenRedo | hello.py:616-648 | undo then redo returns to the same history and shows its snapshot under the saturation |
| EditorProperties.SaturationDoesNotCompound | hello.py:498-521 | in any well-formed state, an empty image included, two slider moves equal the second alone |
| EditorProperties.SmallReleaseCropsNothing | hello.py:249-258 | in any well-formed state, an empty image included, a too-small release clears the selection, so leaving the mode crops nothing under either toggle |
| EditorProperties.AsWrittenCommitsEmptyCrop | hello.py:236-258 | as written, press on the image, release off it, toggle: a 0x0 crop becomes current and is in the history |
| EditorProperties.GuardedIgnoresEmptySelection | hello.py:249-258 | with the guarded toggle the same gesture leaves image and history unchanged |
| EditorProperties.CropScenario | hello.py:268-311 | cropping (50,50)-(250,150) from 300x300 gives 200x100, moves (60,60) to (10,10) and drops (10,10) |
| EditorProperties.EdgePointSurvivesCrop | hello.py:304-308 | a point on the right edge survives with x equal to the new width |

## Left out

- Widgets, menus, key bindings, message boxes, the colour chooser, file dialogs and drag-and-drop (hello.py:30-139, 327-343, 571-577, 704-720) are user interface. A dialog's answer is an event parameter. The fill colour is a state field fixed at its initial "white".
- The 100 ms deferred redraw and the window-resize event filtering (hello.py:389-391, 481-496) are event-loop timing. A deferred redraw leaves the view unchanged, and a resize records the canvas size and redraws at once.
- Pixel content is left out: polygon rasterisation, LANCZOS resizing, the saturation enhancer, crop, convert, save and the HEIC codec are library calls. They are opaque terms, and only the sizes and modes stated in `Imaging` are assumed. `Imaging.Enhance` also assumes that factor 1.0 returns the image unchanged. Library errors are not modelled in general; the one exception is a failed write, which is an event parameter.
- The resampler's behaviour for a zero display dimension is not modelled. That case arises only when an extreme aspect ratio truncates one axis to 0.
- Floating-point rounding of the scale ratio: the scale is an exact real.
- Canvas overlay bookkeeping (`dots`, `display_points`, the rectangle handle) is left out. `Editor.UpdateTrim` tests the start corner, which is set exactly when the rectangle handle is.
- The slider callback that Tk may fire when opening a file resets the slider (hello.py:355) is event-loop behaviour and is not modelled.
- SaveTarget.Lower: lowers only ASCII letters, whereas Python's `str.lower` also lowers other Unicode letters. No extension test involves those letters.
- The close prompt (hello.py:711-720) is left out, because it is dialog wiring around `save_image`.

## Findings

| source | as written | input that shows it | evidently intended | confidence | as-written member | corrected member |
|---|---|---|---|---|---|---|
| hello.py:236-258 | the 10-pixel minimum is checked only in `end_trim_selection`, which returns early for a release off the image; `toggle_trimming_mode` then crops whatever corners are set, so any selection whose release was off the image is cropped without the size test (a 5x5 one as much as a 0x0 one) | in Trimming mode, press on the image, release off it, press the trimming button: the box is `(x,y,x,y)`, a 0x0 crop is committed, and the redraw divides by zero | a selection under 10 px on either axis is never cropped | medium; not executed | EditorProperties.AsWrittenCommitsEmptyCrop | EditorProperties.GuardedIgnoresEmptySelection |

`Editor.ToggleTrimmingAsWritten` models the button as written, and
`Editor.ToggleTrimming` is the corrected button, which `Editor.Step` uses.
`EditorProperties.StepPreservesValid` shows that with the correction every
image the editor holds has pixels.

=== FILE: Display.dfy ===
/** The mapping between canvas space and original-image space. The scale
    ratio is an exact real here; the floating-point rounding of the original
    is not modelled. */
module Display {
  import opened Optional
  import opened Geometry

  /** What a redraw leaves behind: the scale ratio and the size of the
      displayed, possibly downscaled, image. */
  datatype View = View(scale: real, shownW: int, shownH: int)

  /** The outcome of a redraw request. */
  datatype Redraw =
    | Deferred             // the canvas is not laid out yet; retried later
    | ZeroDivision         // the image has a zero dimension; the redraw raises
    | Shown(view: View)

  /** Python's `int()` on a number: truncation toward zero. */
  function Trunc(r: real): (n: int)
    ensures r >= 0.0 ==> 0 <= n && n as real <= r < n as real + 1.0
    ensures r < 0.0 ==> n <= 0 && n as real - 1.0 < r <= n as real
  {
    if r >= 0.0 then r.Floor else -((-r).Floor)
  }

  /** The centring offset `(canvas - shown) // 2`. Python's `//` floors;
      Dafny's `/` agrees with it because the divisor 2 is positive. */
  function Offset(canvas: int, shown: int): (o: int)
    ensures 2 * o <= canvas - shown < 2 * o + 2
  {
    (canvas - shown) / 2
  }

  /** A view fits an image of size `w x h`: a positive scale of at most 1, and
      a displayed size that is the truncated scaled size. */
  predicate ViewOf(v: View, w: int, h: int) {
    && 0.0 < v.scale <= 1.0
    && v.shownW == Trunc(w as real * v.scale)
    && v.shownH == Trunc(h as real * v.scale)
  }

  /** The product of a non-negative number and a factor in (0, 1] lies
      between 0 and the number. */
  lemma ProductBounds(a: real, s: real)
    requires a >= 0.0 && 0.0 < s <= 1.0
    ensures 0.0 <= a * s <= a
  {
    MulMono(0.0, s, a);
    MulMono(s, 1.0, a);
    assert s * a == a * s;
  }

  /** Truncating a real between 0 and an integer stays between them. */
  lemma TruncBetween(r: real, n: int)
    requires 0.0 <= r <= n as real
    ensures 0 <= Trunc(r) <= n
  {
  }

  /** A ratio no larger than `c / d` scales `d` to at most `c`. */
  lemma RatioFits(c: int, d: int, ratio: real)
    requires d > 0 && ratio <= c as real / d as real
    ensures ratio * d as real <= c as real
  {
    var full := c as real / d as real;
    assert full * d as real == c as real;
    assert ratio * d as real <= full * d as real;
  }

  /** The scale ratio: the smaller of the two axis ratios, capped at 1, so
      the image fits the canvas and is never enlarged. */
  function FitRatio(cw: int, ch: int, w: int, h: int): (s: real)
    requires cw > 1 && ch > 1 && w > 0 && h > 0
    ensures 0.0 < s <= 1.0
    ensures s * w as real <= cw as real && s * h as real <= ch as real
    ensures s == 1.0 || s * w as real == cw as real || s * h as real == ch as real
  {
    var widthRatio := cw as real / w as real;
    var heightRatio := ch as real / h as real;
    var ratio := if widthRatio <= heightRatio then widthRatio else heightRatio;
    RatioFits(cw, w, ratio);
    RatioFits(ch, h, ratio);
    assert widthRatio * w as real == cw as real;
    assert heightRatio * h as real == ch as real;
    if ratio >= 1.0 then
      RatioFits(cw, w, 1.0);
      RatioFits(ch, h, 1.0);
      1.0
    else
      ratio
  }

  /** The redraw's layout step: defer on an unlaid canvas, fail on an empty
      image, otherwise show the image at the fitting ratio; at ratio 1 the
      image itself is shown. */
  function ComputeView(cw: int, ch: int, w: nat, h: nat): (r: Redraw)
    ensures r.Deferred? <==> cw <= 1 || ch <= 1
    ensures r.ZeroDivision? <==> cw > 1 && ch > 1 && (w == 0 || h == 0)
    ensures r.Shown? ==> ViewOf(r.view, w, h) && r.view.scale == FitRatio(cw, ch, w, h)
    ensures r.Shown? ==> 0 <= r.view.shownW <= cw && 0 <= r.view.shownH <= ch
  {
    if cw <= 1 || ch <= 1 then Deferred
    else if w == 0 || h == 0 then ZeroDivision
    else Shown(ShowAt(cw, ch, w, h, FitRatio(cw, ch, w, h)))
  }

  /** The view of an image shown at a given ratio; at ratio 1 the image
      itself is shown. A ratio that fits the canvas gives a displayed size
      within it. */
  function ShowAt(cw: int, ch: int, w: nat, h: nat, ratio: real): (v: View)
    requires 0.0 < ratio <= 1.0
    ensures ViewOf(v, w, h) && v.scale == ratio
    ensures ratio * w as real <= cw as real ==> 0 <= v.shownW <= cw
    ensures ratio * h as real <= ch as real ==> 0 <= v.shownH <= ch
  {
    ScaledFits(w, ratio, cw);
    ScaledFits(h, ratio, ch);
    if ratio == 1.0 then
      UnitScale(w);
      UnitScale(h);
      View(1.0, w, h)
    else
      View(ratio, Trunc(w as real * ratio), Trunc(h as real * ratio))
  }

  /** At scale 1 the displayed size is the image size. */
  lemma UnitScale(w: nat)
    ensures Trunc(w as real * 1.0) == w
  {
    assert w as real * 1.0 == w as real;
  }

  /** A size whose scaled value fits a length stays within it once
      truncated. */
  lemma ScaledFits(w: nat, s: real, c: int)
    requires 0.0 < s <= 1.0
    ensures s * w as real <= c as real ==> 0 <= Trunc(w as real * s) <= c
  {
    if s * w as real <= c as real {
      ProductBounds(w as real, s);
      assert s * w as real == w as real * s;
      TruncBetween(w as real * s, c);
    }
  }

  /** Whether a canvas point lies on the displayed image. */
  predicate OnImage(v: View, cw: int, ch: int, x: int, y: int) {
    var rx := x - Offset(cw, v.shownW);
    var ry := y - Offset(ch, v.shownH);
    0 <= rx < v.shownW && 0 <= ry < v.shownH
  }

  /** Canvas space to original-image space; `None` for a point off the
      displayed image. */
  function ToOriginal(v: View, cw: int, ch: int, x: int, y: int): (r: Option<Point>)
    requires v.scale > 0.0
    ensures r.None? <==> !OnImage(v, cw, ch, x, y)
    ensures r.Some? ==> r.value.x >= 0 && r.value.y >= 0
  {
    var rx := x - Offset(cw, v.shownW);
    var ry := y - Offset(ch, v.shownH);
    if rx < 0 || rx >= v.shownW || ry < 0 || ry >= v.shownH then None
    else Some(Point(ImageAxis(x, cw, v.shownW, v.scale), ImageAxis(y, ch, v.shownH, v.scale)))
  }

  /** One coordinate from canvas to image: remove the centring offset, then
      undo the scaling. */
  function ImageAxis(c: int, canvas: int, shown: int, s: real): int
    requires s > 0.0
  {
    Trunc((c - Offset(canvas, shown)) as real / s)
  }

  /** One coordinate from image to canvas: scale, then add the offset. */
  function CanvasAxis(o: int, canvas: int, shown: int, s: real): int {
    Trunc(o as real * s) + Offset(canvas, shown)
  }

  /** Original-image space to canvas space, for drawing markers: each
      coordinate, scaled, lies within one pixel after the centring offset. */
  function ToCanvas(v: View, cw: int, ch: int, p: Point): (q: Point)
    ensures p.x >= 0 && v.scale >= 0.0 ==>
      var d := q.x - Offset(cw, v.shownW);
      d >= 0 && d as real <= p.x as real * v.scale < d as real + 1.0
    ensures p.y >= 0 && v.scale >= 0.0 ==>
      var d := q.y - Offset(ch, v.shownH);
      d >= 0 && d as real <= p.y as real * v.scale < d as real + 1.0
  {
    NonNegProduct(p.x as real, v.scale);
    NonNegProduct(p.y as real, v.scale);
    Point(CanvasAxis(p.x, cw, v.shownW, v.scale), CanvasAxis(p.y, ch, v.shownH, v.scale))
  }

  /** The product of two non-negative numbers is non-negative. */
  lemma NonNegProduct(a: real, s: real)
    ensures a >= 0.0 && s >= 0.0 ==> a * s >= 0.0
  {
    if a >= 0.0 && s >= 0.0 {
      MulMono(0.0, a, s);
    }
  }

  /** A marker for a pixel of the image lands on the displayed image or on
      its right or bottom edge: truncation can round a last pixel onto the
      displayed size. */
  lemma MarkerOnDisplay(v: View, w: int, h: int, cw: int, ch: int, p: Point)
    requires ViewOf(v, w, h)
    requires 0 <= p.x < w && 0 <= p.y < h
    ensures var q := ToCanvas(v, cw, ch, p);
      && Offset(cw, v.shownW) <= q.x <= Offset(cw, v.shownW) + v.shownW
      && Offset(ch, v.shownH) <= q.y <= Offset(ch, v.shownH) + v.shownH
  {
    MarkerAxis(p.x, w, cw, v.shownW, v.scale);
    MarkerAxis(p.y, h, ch, v.shownH, v.scale);
  }

  /** One axis of `MarkerOnDisplay`. */
  lemma MarkerAxis(o: int, w: int, canvas: int, shown: int, s: real)
    requires 0 <= o <= w && 0.0 < s && shown == Trunc(w as real * s)
    ensures Offset(canvas, shown) <= CanvasAxis(o, canvas, shown, s) <= Offset(canvas, shown) + shown
  {
    AxisMonotone(o, w, s);
  }

  /** Scaling and truncating keeps the order of non-negative coordinates. */
  lemma AxisMonotone(o: int, w: int, s: real)
    requires 0 <= o <= w && 0.0 < s
    ensures 0 <= Trunc(o as real * s) <= Trunc(w as real * s)
  {
    MulMono(o as real, w as real, s);
    MulMono(0.0, o as real, s);
    TruncMonotone(o as real * s, w as real * s);
  }

  /** Truncation is monotone on non-negative reals. */
  lemma TruncMonotone(a: real, b: real)
    requires 0.0 <= a <= b
    ensures 0 <= Trunc(a) <= Trunc(b)
  {
  }

  /** One axis of the inverse mapping stays inside the image. */
  lemma AxisInImage(rel: int, w: int, s: real)
    requires 0.0 < s <= 1.0 && 0 <= rel < Trunc(w as real * s)
    ensures 0 <= Trunc(rel as real / s) < w
  {
    var q := rel as real / s;
    DivThenMul(rel as real, s);
    BelowTrunc(rel, w as real * s);
    MulCancelStrict(q, w as real, s);
    QuotientInImage(q, w);
  }

  /** An integer below the truncation of a real is below the real. */
  lemma BelowTrunc(n: int, r: real)
    requires 0 <= n < Trunc(r)
    ensures n as real < r
  {
  }

  /** A positive factor can be cancelled from a strict inequality. */
  lemma MulCancelStrict(a: real, b: real, s: real)
    requires s > 0.0 && a * s < b * s
    ensures a < b
  {
    if a >= b {
      MulMono(b, a, s);
    }
  }

  /** Truncating a non-negative real below an integer stays below it. */
  lemma QuotientInImage(q: real, w: int)
    requires 0.0 <= q < w as real
    ensures 0 <= Trunc(q) < w
  {
  }

  /** A canvas point on the displayed image maps to a pixel of the image the
      view was computed for. */
  lemma MappedPointInImage(v: View, w: int, h: int, cw: int, ch: int, x: int, y: int)
    requires v.scale > 0.0
    ensures ViewOf(v, w, h) && ToOriginal(v, cw, ch, x, y).Some? ==>
      var p := ToOriginal(v, cw, ch, x, y).value;
      0 <= p.x < w && 0 <= p.y < h
  {
    if ViewOf(v, w, h) && ToOriginal(v, cw, ch, x, y).Some? {
      var p := ToOriginal(v, cw, ch, x, y).value;
      assert p.x == ImageAxis(x, cw, v.shownW, v.scale) && p.y == ImageAxis(y, ch, v.shownH, v.scale);
      AxisMapsInto(x, cw, v.shownW, w, v.scale);
      AxisMapsInto(y, ch, v.shownH, h, v.scale);
    }
  }

  /** One axis of `MappedPointInImage`, offset included. */
  lemma AxisMapsInto(c: int, canvas: int, shown: int, w: int, s: real)
    requires 0.0 < s <= 1.0 && shown == Trunc(w as real * s)
    requires 0 <= c - Offset(canvas, shown) < shown
    ensures 0 <= ImageAxis(c, canvas, shown, s) < w
  {
    AxisInImage(c - Offset(canvas, shown), w, s);
  }

  /** Multiplying by a non-negative factor keeps an inequality. */
  lemma MulMono(a: real, b: real, s: real)
    requires a <= b && s >= 0.0
    ensures a * s <= b * s
  {
  }

  /** Multiplying by a positive factor keeps a strict inequality. */
  lemma MulStrictMono(a: real, b: real, s: real)
    requires a < b && s > 0.0
    ensures a * s < b * s
  {
  }

  /** Multiplication distributes over taking one away. */
  lemma MulMinusOne(q: real, s: real)
    ensures (q - 1.0) * s == q * s - s
  {
  }

  /** Dividing and multiplying back by the same non-zero factor. */
  lemma DivThenMul(a: real, s: real)
    requires s > 0.0
    ensures (a / s) * s == a
    ensures a >= 0.0 ==> a / s >= 0.0
  {
  }

  /** Scaling the truncated quotient back: with `q * s == rel` and `o` the
      integer part of `q`, the product `o * s` lies in `(rel - 1, rel]`. */
  lemma ScaleBack(rel: real, s: real, q: real, o: real)
    requires 0.0 < s <= 1.0
    requires q * s == rel
    requires 0.0 <= o <= q < o + 1.0
    ensures 0.0 <= o * s <= rel && rel - 1.0 < o * s
  {
    MulMono(o, q, s);
    MulStrictMono(q - 1.0, o, s);
    MulMinusOne(q, s);
    MulMono(0.0, o, s);
    LinearStep(rel, s, o * s, q * s, (q - 1.0) * s);
  }

  /** The linear part of `ScaleBack`, with the products named. */
  lemma LinearStep(rel: real, s: real, os: real, qs: real, q1s: real)
    requires s <= 1.0 && qs == rel && q1s == qs - s && q1s < os && 0.0 <= os <= qs
    ensures 0.0 <= os <= rel && rel - 1.0 < os
  {
  }

  /** One axis of the round trip: scaling back down loses at most one pixel,
      and nothing when the scale is 1. */
  lemma AxisRoundTrip(rel: int, s: real)
    requires rel >= 0 && 0.0 < s <= 1.0
    ensures var back := Trunc(Trunc(rel as real / s) as real * s);
      rel - 1 <= back <= rel && (s == 1.0 ==> back == rel)
  {
    var q := rel as real / s;
    DivThenMul(rel as real, s);
    var o := Trunc(q);
    ScaleBack(rel as real, s, q, o as real);
    if s == 1.0 {
      assert q == rel as real;
    }
  }

  /** The same on canvas coordinates, offset included. */
  lemma CanvasAxisRoundTrip(canvas: int, shown: int, s: real, c: int)
    requires 0.0 < s <= 1.0 && 0 <= c - Offset(canvas, shown)
    ensures var back := CanvasAxis(ImageAxis(c, canvas, shown, s), canvas, shown, s);
      c - 1 <= back <= c && (s == 1.0 ==> back == c)
  {
    AxisRoundTrip(c - Offset(canvas, shown), s);
  }

  /** Mapping a click into the image and drawing its marker lands on the
      click or one pixel up or left of it; at scale 1 it lands on the click. */
  lemma RoundTrip(v: View, cw: int, ch: int, x: int, y: int)
    requires 0.0 < v.scale <= 1.0
    ensures ToOriginal(v, cw, ch, x, y).Some? ==>
      var q := ToCanvas(v, cw, ch, ToOriginal(v, cw, ch, x, y).value);
      && x - 1 <= q.x <= x && y - 1 <= q.y <= y
      && (v.scale == 1.0 ==> q == Point(x, y))
  {
    if ToOriginal(v, cw, ch, x, y).Some? {
      CanvasAxisRoundTrip(cw, v.shownW, v.scale, x);
      CanvasAxisRoundTrip(ch, v.shownH, v.scale, y);
    }
  }

  /** A 2000x1000 image in a 1000x500 canvas is shown at half size with no
      offset; the canvas centre maps to the image centre and back. */
  lemma HalfScaleScenario()
    ensures ComputeView(1000, 500, 2000, 1000) == Shown(View(0.5, 1000, 500))
    ensures ToOriginal(View(0.5, 1000, 500), 1000, 500, 500, 250) == Some(Point(1000, 500))
    ensures ToCanvas(View(0.5, 1000, 500), 1000, 500, Point(1000, 500)) == Point(500, 250)
  {
    HalfScaleView();
    HalfScaleMapping();
  }

  /** The layout half of `HalfScaleScenario`. */
  lemma HalfScaleView()
    ensures ComputeView(1000, 500, 2000, 1000) == Shown(View(0.5, 1000, 500))
  {
    assert FitRatio(1000, 500, 2000, 1000) == 0.5;
    assert Trunc(2000 as real * 0.5) == 1000 && Trunc(1000 as real * 0.5) == 500;
  }

  /** The mapping half of `HalfScaleScenario`. */
  lemma HalfScaleMapping()
    ensures ToOriginal(View(0.5, 1000, 500), 1000, 500, 500, 250) == Some(Point(1000, 500))
    ensures ToCanvas(View(0.5, 1000, 500), 1000, 500, Point(1000, 500)) == Point(500, 250)
  {
    assert Offset(1000, 1000) == 0 && Offset(500, 500) == 0;
    assert Trunc(500 as real / 0.5) == 1000 && Trunc(250 as real / 0.5) == 500;
    assert Trunc(1000 as real * 0.5) == 500 && Trunc(500 as real * 0.5) == 250;
  }

  /** The marker positions of the polygon points, in click order. */
  method ProjectPoints(v: View, cw: int, ch: int, points: seq<Point>) returns (markers: seq<Point>)
    ensures |markers| == |points|
    ensures forall i :: 0 <= i < |points| ==> markers[i] == ToCanvas(v, cw, ch, points[i])
  {
    markers := [];
    var i := 0;
    while i < |points|
      invariant 0 <= i <= |points|
      invariant |markers| == i
      invariant forall j :: 0 <= j < i ==> markers[j] == ToCanvas(v, cw, ch, points[j])
    {
      markers := markers + [ToCanvas(v, cw, ch, points[i])];
      i := i + 1;
    }
  }

}

=== FILE: Editor.dfy ===
/** The editor's state and its event handlers, as pure transitions. Widgets,
    dialogs and canvas overlay items are not modelled: a dialog's answer is a
    parameter of the event that needs it, and only the logical content of
    the overlay (the points and the selection corners) is kept. */
module Editor {
  import opened Optional
  import opened Geometry
  import opened Imaging
  import History
  import opened Display
  import SaveTarget

  /** The two interaction modes: clicking polygon points, or dragging a crop
      rectangle. */
  datatype Mode = Normal | Trimming

  datatype EditorState = EditorState(
    image: Option<Image>,            // the working image; Some once a file is open
    history: History.Stack<Image>,   // committed snapshots and the current index
    points: seq<Point>,              // polygon points, in image space
    mode: Mode,
    trimStart: Option<Point>,        // selection corners, in image space
    trimEnd: Option<Point>,
    saturation: real,                // the saturation slider's value
    fillColor: string,
    unsaved: bool,
    canvasW: int,                    // the canvas size as last reported
    canvasH: int,
    view: Option<View>)              // the last completed redraw

  /** The state the handlers rely on: no history, points, selection or view
      before a file is opened; afterwards an index inside the history; and a
      view scale in (0, 1]. */
  predicate Wf(s: EditorState) {
    && (s.image.None? ==>
          s.history == History.Empty() && s.points == [] && s.view.None?
          && s.trimStart.None? && s.trimEnd.None?)
    && (s.image.Some? ==> s.history.Valid())
    && (s.view.Some? ==> 0.0 < s.view.value.scale <= 1.0)
  }

  predicate AllHaveArea(images: seq<Image>) {
    forall i :: 0 <= i < |images| ==> images[i].HasArea()
  }

  /** A selection exists only in the trimming mode. */
  predicate SelectionOnlyWhenTrimming(s: EditorState) {
    s.mode == Normal ==> s.trimStart.None? && s.trimEnd.None?
  }

  /** The invariant kept by every event: well-formed, no selection outside
      the trimming mode, and no image without area in the editor. */
  predicate Valid(s: EditorState) {
    && Wf(s)
    && SelectionOnlyWhenTrimming(s)
    && (s.image.Some? ==> s.image.value.HasArea() && AllHaveArea(s.history.snapshots))
  }

  /** The editor as constructed, before any file is opened. */
  function Init(canvasW: int, canvasH: int): (s: EditorState)
    ensures Valid(s) && s.image.None? && s.mode == Normal && !s.unsaved
    ensures s.saturation == 1.0 && s.history.index == -1 && s.points == []
  {
    EditorState(None, History.Empty(), [], Normal, None, None, 1.0, "white", false,
                canvasW, canvasH, None)
  }

  /** Redrawing: recompute the view for the current canvas and image. `None`
      when the redraw raises because the image has a zero dimension; the
      handler that asked for it stops there. */
  function Refresh(s: EditorState): (r: Option<EditorState>)
    requires Wf(s)
    ensures r.None? <==> s.image.Some? && s.canvasW > 1 && s.canvasH > 1 && !s.image.value.HasArea()
    ensures r.Some? ==> r.value == s.(view := r.value.view) && Wf(r.value)
    ensures r.Some? && s.image.Some? && s.canvasW > 1 && s.canvasH > 1 ==>
      r.value.view.Some? && ViewOf(r.value.view.value, s.image.value.width, s.image.value.height)
    ensures r.Some? && (s.image.None? || s.canvasW <= 1 || s.canvasH <= 1) ==> r.value == s
  {
    if s.image.None? then Some(s)
    else
      match ComputeView(s.canvasW, s.canvasH, s.image.value.width, s.image.value.height)
      case Deferred => Some(s)
      case ZeroDivision => None
      case Shown(v) => Some(s.(view := Some(v)))
  }

  /** The image pixel under a canvas point, or None off the displayed image.
      Before the first redraw there is no displayed image; the original then
      raises before changing anything, which has the same effect. */
  function MapClick(s: EditorState, x: int, y: int): (r: Option<Point>)
    requires Wf(s)
    ensures r.Some? ==> s.view.Some? && OnImage(s.view.value, s.canvasW, s.canvasH, x, y)
    ensures s.view.Some? && OnImage(s.view.value, s.canvasW, s.canvasH, x, y) ==> r.Some?
    ensures r.Some? && s.image.Some? && ViewOf(s.view.value, s.image.value.width, s.image.value.height) ==>
      0 <= r.value.x < s.image.value.width && 0 <= r.value.y < s.image.value.height
  {
    if s.view.None? then None
    else
      MappedPointInImage(s.view.value, if s.image.Some? then s.image.value.width else 0,
                         if s.image.Some? then s.image.value.height else 0,
                         s.canvasW, s.canvasH, x, y);
      ToOriginal(s.view.value, s.canvasW, s.canvasH, x, y)
  }

  /** Opening a file. A decode failure changes nothing; otherwise the image
      replaces the old one, the history restarts with it, the points go and
      the saturation returns to 1. The mode and the selection are kept. */
  function Load(s: EditorState, decoded: Option<Image>): (r: EditorState)
    requires Wf(s)
    ensures Wf(r)
    ensures decoded.None? ==> r == s
    ensures decoded.Some? ==>
      && r.image == decoded && r.history == History.Reset(decoded.value)
      && r.points == [] && r.saturation == 1.0
      && r.mode == s.mode && r.trimStart == s.trimStart && r.trimEnd == s.trimEnd
      && r.unsaved == s.unsaved
  {
    if decoded.None? then s
    else
      var img := decoded.value;
      var s1 := s.(image := Some(img), saturation := 1.0, history := History.Reset(img), points := []);
      match Refresh(s1)
      case None => s1
      case Some(s2) => s2
  }

  /** A left click in the normal mode: a click on the image appends its
      pixel to the polygon points. */
  function AddPoint(s: EditorState, x: int, y: int): (r: EditorState)
    requires Wf(s)
    ensures Wf(r)
    ensures s.image.None? || MapClick(s, x, y).None? ==> r == s
    ensures s.image.Some? && MapClick(s, x, y).Some? ==>
      r == s.(points := s.points + [MapClick(s, x, y).value])
    ensures r != s && ViewOf(s.view.value, s.image.value.width, s.image.value.height) ==>
      0 <= r.points[|s.points|].x < s.image.value.width && 0 <= r.points[|s.points|].y < s.image.value.height
  {
    if s.image.None? then s
    else
      match MapClick(s, x, y)
      case None => s
      case Some(p) => s.(points := s.points + [p])
  }

  /** When a right click fills: an image is open, the click is on it, and
      there are more than two points. */
  predicate FillApplies(s: EditorState, x: int, y: int)
    requires Wf(s)
  {
    s.image.Some? && MapClick(s, x, y).Some? && |s.points| > 2
  }

  /** A right click in the normal mode: fill the polygon. The change is
      bracketed by two commits, the pre-fill image and the filled one, after
      the redo branch is dropped; then the points are cleared. */
  function Fill(s: EditorState, x: int, y: int): (r: EditorState)
    requires Wf(s)
    ensures Wf(r)
    ensures !FillApplies(s, x, y) ==> r == s
    ensures FillApplies(s, x, y) ==>
      var i := s.history.index;
      && |r.history.snapshots| == i + 3 && r.history.index == i + 2
      && r.history.snapshots[..i + 1] == s.history.snapshots[..i + 1]
      && r.history.snapshots[i + 1] == s.image.value
      && r.image == Some(r.history.Current())
      && r.image.value == FillPolygon(s.image.value, s.points, s.fillColor)
      && !r.history.CanRedo()
      && r.unsaved && r.saturation == s.saturation
      && r.mode == s.mode && r.trimStart == s.trimStart && r.trimEnd == s.trimEnd
    ensures FillApplies(s, x, y) && s.image.value.HasArea() ==> r.points == []
  {
    if !FillApplies(s, x, y) then s
    else
      var pre := s.image.value;
      var h1 := History.Push(s.history, pre);
      var post := FillPolygon(pre, s.points, s.fillColor);
      var h2 := History.Push(h1, post);
      assert h2.snapshots[..s.history.index + 1] == h1.snapshots[..s.history.index + 1];
      var s1 := s.(history := h2, image := Some(post), unsaved := true);
      match Refresh(s1)
      case None => s1
      case Some(s2) => s2.(points := [])
  }

  /** The working image for a snapshot under the current saturation: the
      enhancer is skipped at 1.0. */
  function Reapply(snapshot: Image, saturation: real): (img: Image)
    ensures img == Enhance(snapshot, saturation)
  {
    if saturation != 1.0 then Enhance(snapshot, saturation) else snapshot
  }

  /** Undo: step back one snapshot and show it under the stored saturation;
      nothing happens at the first snapshot or without an image. */
  function Undo(s: EditorState): (r: EditorState)
    requires Wf(s)
    ensures Wf(r)
    ensures r.history.snapshots == s.history.snapshots && r.points == s.points
    ensures r.mode == s.mode && r.trimStart == s.trimStart && r.trimEnd == s.trimEnd
    ensures s.image.None? || !s.history.CanUndo() ==> r == s
    ensures s.image.Some? && s.history.CanUndo() ==>
      r.history.index == s.history.index - 1
      && r.image == Some(Enhance(r.history.Current(), s.saturation))
  {
    if s.image.None? || !s.history.CanUndo() then s
    else
      var h := History.Undo(s.history);
      var s1 := s.(history := h, image := Some(Reapply(h.Current(), s.saturation)));
      match Refresh(s1)
      case None => s1
      case Some(s2) => s2.(unsaved := true)
  }

  /** Redo: step forward one snapshot and show it under the stored
      saturation; nothing happens at the last snapshot or without an image. */
  function Redo(s: EditorState): (r: EditorState)
    requires Wf(s)
    ensures Wf(r)
    ensures r.history.snapshots == s.history.snapshots && r.points == s.points
    ensures r.mode == s.mode && r.trimStart == s.trimStart && r.trimEnd == s.trimEnd
    ensures s.image.None? || !s.history.CanRedo() ==> r == s
    ensures s.image.Some? && s.history.CanRedo() ==>
      r.history.index == s.history.index + 1
      && r.image == Some(Enhance(r.history.Current(), s.saturation))
  {
    if s.image.None? || !s.history.CanRedo() then s
    else
      var h := History.Redo(s.history);
      var s1 := s.(history := h, image := Some(Reapply(h.Current(), s.saturation)));
      match Refresh(s1)
      case None => s1
      case Some(s2) => s2.(unsaved := true)
  }

  /** Moving the saturation slider: the working image is recomputed from
      the current snapshot, never from the previous working image, and no
      snapshot is committed. */
  function SetSaturation(s: EditorState, value: real): (r: EditorState)
    requires Wf(s)
    ensures Wf(r)
    ensures r.history == s.history && r.points == s.points
    ensures r.mode == s.mode && r.trimStart == s.trimStart && r.trimEnd == s.trimEnd
    ensures s.image.None? ==> r == s
    ensures s.image.Some? ==>
      r.saturation == value && r.image == Some(Enhance(s.history.Current(), value))
    ensures s.image.Some? && value == 1.0 ==> r.image == Some(s.history.Current())
  {
    if s.image.None? then s
    else
      var s1 := s.(saturation := value, image := Some(Enhance(s.history.Current(), value)));
      match Refresh(s1)
      case None => s1
      case Some(s2) => s2.(unsaved := true)
  }

  /** Forget the selection. */
  function ResetTrim(s: EditorState): (r: EditorState)
    ensures r == s.(trimStart := None, trimEnd := None)
  {
    s.(trimStart := None, trimEnd := None)
  }

  /** A selection is too small when it spans under 10 pixels on either axis:
      exactly when the crop it would make is under 10 pixels wide or high. */
  predicate TooSmall(a: Point, b: Point): (small: bool)
    ensures small <==> BoxFromCorners(a, b).Width() < 10 || BoxFromCorners(a, b).Height() < 10
  {
    Abs(b.x - a.x) < 10 || Abs(b.y - a.y) < 10
  }

  /** Pressing the button in the trimming mode: any old selection goes; a
      press on the image starts a selection with both corners there. */
  function StartTrim(s: EditorState, x: int, y: int): (r: EditorState)
    requires Wf(s)
    ensures Wf(r)
    ensures s.image.None? ==> r == s
    ensures s.image.Some? && MapClick(s, x, y).None? ==> r == ResetTrim(s)
    ensures s.image.Some? && MapClick(s, x, y).Some? ==>
      r == s.(trimStart := MapClick(s, x, y), trimEnd := MapClick(s, x, y))
  {
    if s.image.None? then s
    else
      var s1 := ResetTrim(s);
      match MapClick(s1, x, y)
      case None => s1
      case Some(p) => s1.(trimStart := Some(p), trimEnd := Some(p))
  }

  /** Dragging: the moving corner follows the pointer while it is on the
      image and a selection has been started. */
  function UpdateTrim(s: EditorState, x: int, y: int): (r: EditorState)
    requires Wf(s)
    ensures Wf(r)
    ensures s.trimStart.None? || MapClick(s, x, y).None? ==> r == s
    ensures s.trimStart.Some? && MapClick(s, x, y).Some? ==> r == s.(trimEnd := MapClick(s, x, y))
  {
    if s.trimStart.None? then s
    else
      match MapClick(s, x, y)
      case None => s
      case Some(p) => s.(trimEnd := Some(p))
  }

  /** Releasing the button. A release off the image is ignored, and the size
      test is skipped with it. On the image the corner is recorded; a
      selection under 10 pixels on either axis is then discarded. Without a
      start corner the size test raises and the end corner stays. */
  function EndTrim(s: EditorState, x: int, y: int): (r: EditorState)
    requires Wf(s)
    ensures Wf(r)
    ensures MapClick(s, x, y).None? ==> r == s
    ensures MapClick(s, x, y).Some? && s.trimStart.Some? && TooSmall(s.trimStart.value, MapClick(s, x, y).value) ==>
      r == ResetTrim(s)
    ensures MapClick(s, x, y).Some? && !(s.trimStart.Some? && TooSmall(s.trimStart.value, MapClick(s, x, y).value)) ==>
      r == s.(trimEnd := MapClick(s, x, y))
  {
    match MapClick(s, x, y)
    case None => s
    case Some(p) =>
      var s1 := s.(trimEnd := Some(p));
      if s1.trimStart.None? then s1
      else if TooSmall(s1.trimStart.value, p) then ResetTrim(s1)
      else s1
  }

  /** Cropping to the selection: normalise the corners, commit the current
      image, crop, commit the crop, and rebase the points onto it. */
  function ExecuteTrimming(s: EditorState): (r: EditorState)
    requires Wf(s)
    ensures Wf(r)
    ensures s.trimStart.None? || s.trimEnd.None? ==> r == s
    ensures s.trimStart.Some? && s.trimEnd.Some? ==>
      var a, b, i := s.trimStart.value, s.trimEnd.value, s.history.index;
      && |r.history.snapshots| == i + 3 && r.history.index == i + 2
      && r.history.snapshots[..i + 1] == s.history.snapshots[..i + 1]
      && r.history.snapshots[i + 1] == s.image.value
      && r.image == Some(r.history.Current())
      && r.image == Some(Crop(s.image.value, BoxFromCorners(a, b)))
      && r.image.value.width == Abs(a.x - b.x) && r.image.value.height == Abs(a.y - b.y)
      && r.image.value.mode == s.image.value.mode
      && r.points == Rebase(s.points, BoxFromCorners(a, b))
      && !r.history.CanRedo()
      && r.mode == s.mode && r.trimStart == s.trimStart && r.trimEnd == s.trimEnd
      && r.saturation == s.saturation
    ensures s.trimStart.Some? && s.trimEnd.Some? ==> (r.unsaved <==> s.unsaved || r.image.value.HasArea() || s.canvasW <= 1 || s.canvasH <= 1)
  {
    if s.trimStart.None? || s.trimEnd.None? then s
    else
      var box := BoxFromCorners(s.trimStart.value, s.trimEnd.value);
      var img := s.image.value;
      var h1 := History.Push(s.history, img);
      var cropped := Crop(img, box);
      var h2 := History.Push(h1, cropped);
      assert h2.snapshots[..s.history.index + 1] == h1.snapshots[..s.history.index + 1];
      var s1 := s.(history := h2, image := Some(cropped), points := Rebase(s.points, box));
      match Refresh(s1)
      case None => s1
      case Some(s2) => s2.(unsaved := true)
  }

  /** The trimming button, exactly as the original has it: entering the mode
      only switches it; leaving crops whenever both corners are set, then
      forgets the selection. */
  function ToggleTrimmingAsWritten(s: EditorState): (r: EditorState)
    requires Wf(s)
    ensures Wf(r) && r.mode != s.mode
    ensures s.mode == Normal ==> r == s.(mode := Trimming)
    ensures s.mode == Trimming ==> r.trimStart.None? && r.trimEnd.None?
    ensures s.mode == Trimming && (s.trimStart.None? || s.trimEnd.None?) ==>
      r == s.(mode := Normal, trimStart := None, trimEnd := None)
    ensures s.mode == Trimming && s.trimStart.Some? && s.trimEnd.Some? ==>
      var box, i := BoxFromCorners(s.trimStart.value, s.trimEnd.value), s.history.index;
      && |r.history.snapshots| == i + 3 && r.history.index == i + 2
      && r.history.snapshots[..i + 1] == s.history.snapshots[..i + 1]
      && r.history.snapshots[i + 1] == s.image.value
      && r.image == Some(Crop(s.image.value, box)) && r.history.Current() == r.image.value
      && r.points == Rebase(s.points, box)
  {
    if s.mode == Normal then s.(mode := Trimming)
    else
      var s1 := s.(mode := Normal);
      if s1.trimStart.Some? && s1.trimEnd.Some? then ResetTrim(ExecuteTrimming(s1))
      else ResetTrim(s1)
  }

  /** The trimming button with the 10-pixel minimum applied to the crop
      itself: leaving the mode crops only a selection at least 10 pixels wide
      and high, and otherwise just forgets it. */
  function ToggleTrimming(s: EditorState): (r: EditorState)
    requires Wf(s)
    ensures Wf(r) && r.mode != s.mode
    ensures s.mode == Normal ==> r == s.(mode := Trimming)
    ensures s.mode == Trimming ==> r.trimStart.None? && r.trimEnd.None?
    ensures s.mode == Trimming && (s.trimStart.None? || s.trimEnd.None? || TooSmall(s.trimStart.value, s.trimEnd.value)) ==>
      r == s.(mode := Normal, trimStart := None, trimEnd := None)
    ensures s.mode == Trimming && s.trimStart.Some? && s.trimEnd.Some? && !TooSmall(s.trimStart.value, s.trimEnd.value) ==>
      var box, i := BoxFromCorners(s.trimStart.value, s.trimEnd.value), s.history.index;
      && |r.history.snapshots| == i + 3 && r.history.index == i + 2
      && r.history.snapshots[..i + 1] == s.history.snapshots[..i + 1]
      && r.history.snapshots[i + 1] == s.image.value
      && r.image == Some(Crop(s.image.value, box)) && r.history.Current() == r.image.value
      && r.points == Rebase(s.points, box)
      && r.image.value.width >= 10 && r.image.value.height >= 10
  {
    if s.mode == Normal then s.(mode := Trimming)
    else
      var s1 := s.(mode := Normal);
      if s1.trimStart.Some? && s1.trimEnd.Some? && !TooSmall(s1.trimStart.value, s1.trimEnd.value) then
        ResetTrim(ExecuteTrimming(s1))
      else ResetTrim(s1)
  }

  /** Saving: with an image and a chosen path, the plan from the extension is
      carried out; the unsaved flag clears unless the write raised. A
      cancelled JPEG quality prompt writes nothing and still clears it. */
  function Save(s: EditorState, path: string, quality: Option<int>, written: bool): (r: EditorState)
    requires quality.Some? ==> 1 <= quality.value <= 100
    ensures r == s.(unsaved := r.unsaved)
    ensures s.image.None? || path == [] ==> r == s
    ensures s.image.Some? && path != [] ==>
      var plan := SaveTarget.Dispatch(path, s.image.value.mode, quality);
      (r.unsaved <==> s.unsaved && plan.Write? && !written)
  {
    if s.image.None? || path == [] then s
    else
      match SaveTarget.Dispatch(path, s.image.value.mode, quality)
      case QualityCancelled => s.(unsaved := false)
      case Write(_, _, _) => if written then s.(unsaved := false) else s
  }

  /** The canvas changed size: record it and redraw. */
  function Resize(s: EditorState, canvasW: int, canvasH: int): (r: EditorState)
    requires Wf(s)
    ensures Wf(r)
    ensures r == s.(canvasW := canvasW, canvasH := canvasH, view := r.view)
  {
    var s1 := s.(canvasW := canvasW, canvasH := canvasH);
    match Refresh(s1)
    case None => s1
    case Some(s2) => s2
  }

  /** The user's inputs, with the answers of any dialog they open. */
  datatype Event =
    | Press(x: int, y: int)              // left button down
    | Drag(x: int, y: int)               // pointer moved with the left button down
    | Release(x: int, y: int)            // left button up
    | RightClick(x: int, y: int)
    | ToggleTrim
    | UndoKey
    | RedoKey
    | SaturationMoved(value: real)
    | Open(decoded: Option<Image>)       // None: the file could not be decoded
    | SaveAs(path: string, quality: Option<int>, written: bool)
    | Resized(w: int, h: int)

  /** What the collaborators guarantee: decoded images have pixels, and the
      quality prompt answers 1 to 100. */
  predicate WellFormedEvent(e: Event) {
    && (e.Open? && e.decoded.Some? ==> e.decoded.value.HasArea())
    && (e.SaveAs? && e.quality.Some? ==> 1 <= e.quality.value <= 100)
  }

  /** Dispatch by mode: in the normal mode the left button adds points and
      the right button fills; in the trimming mode the left button drags a
      selection and the right button is unbound. This is the corrected
      machine: leaving the trimming mode goes through `ToggleTrimming`,
      which crops only a selection of at least 10 pixels each way. The
      trimming button is the only event that changes the mode. */
  function Step(s: EditorState, e: Event): (r: EditorState)
    requires Wf(s) && WellFormedEvent(e)
    ensures Wf(r)
    ensures r.mode != s.mode <==> e.ToggleTrim?
    ensures e.ToggleTrim? && s.mode == Trimming ==> r.trimStart.None? && r.trimEnd.None?
  {
    match e
    case Press(x, y) => if s.mode == Normal then AddPoint(s, x, y) else StartTrim(s, x, y)
    case Drag(x, y) => if s.mode == Trimming then UpdateTrim(s, x, y) else s
    case Release(x, y) => if s.mode == Trimming then EndTrim(s, x, y) else s
    case RightClick(x, y) => if s.mode == Normal then Fill(s, x, y) else s
    case ToggleTrim => ToggleTrimming(s)
    case UndoKey => Undo(s)
    case RedoKey => Redo(s)
    case SaturationMoved(v) => SetSaturation(s, v)
    case Open(decoded) => Load(s, decoded)
    case SaveAs(path, quality, written) => Save(s, path, quality, written)
    case Resized(w, h) => Resize(s, w, h)
  }

  /** The same dispatch with the trimming button as the original has it:
      leaving the trimming mode crops whatever two corners are set. */
  function StepAsWritten(s: EditorState, e: Event): (r: EditorState)
    requires Wf(s) && WellFormedEvent(e)
    ensures Wf(r)
    ensures r.mode != s.mode <==> e.ToggleTrim?
    ensures e.ToggleTrim? && s.mode == Trimming ==> r.trimStart.None? && r.trimEnd.None?
    ensures !e.ToggleTrim? ==> r == Step(s, e)
  {
    match e
    case ToggleTrim => ToggleTrimmingAsWritten(s)
    case _ => Step(s, e)
  }

}

=== FILE: EditorProperties.dfy ===
/** Properties relating several editor events: the state invariant every
    event keeps, undo and redo around an edit, non-compounding saturation,
    and the crop minimum. */
module EditorProperties {
  import opened Optional
  import opened Geometry
  import opened Imaging
  import History
  import opened Display
  import opened Editor

  /** A two-snapshot commit keeps every snapshot with pixels when both new
      snapshots have pixels. */
  lemma CommitKeepsArea(before: seq<Image>, i: int, now: seq<Image>)
    requires 0 <= i < |before| && AllHaveArea(before)
    requires |now| == i + 3 && now[..i + 1] == before[..i + 1]
    requires now[i + 1].HasArea() && now[i + 2].HasArea()
    ensures AllHaveArea(now)
  {
    forall j | 0 <= j < |now| ensures now[j].HasArea() {
      if j <= i {
        assert now[j] == now[..i + 1][j] == before[..i + 1][j] == before[j];
      }
    }
  }

  /** Leaving the trimming mode keeps the invariant: a crop it performs is
      at least 10 pixels each way. */
  lemma ToggleTrimmingKeepsValid(s: EditorState)
    requires Valid(s)
    ensures Valid(ToggleTrimming(s))
  {
    if s.mode == Trimming && s.trimStart.Some? && s.trimEnd.Some? && !TooSmall(s.trimStart.value, s.trimEnd.value) {
      CropKeepsArea(s);
    }
  }

  /** The crop case of `ToggleTrimmingKeepsValid`: both committed snapshots
      have pixels. */
  lemma CropKeepsArea(s: EditorState)
    requires Valid(s) && s.mode == Trimming && s.trimStart.Some? && s.trimEnd.Some?
    requires !TooSmall(s.trimStart.value, s.trimEnd.value)
    ensures var r := ToggleTrimming(s);
      r.image.value.HasArea() && AllHaveArea(r.history.snapshots)
  {
    var r := ToggleTrimming(s);
    var i := s.history.index;
    assert r.history.snapshots[i + 2] == r.history.Current() == r.image.value;
    CommitKeepsArea(s.history.snapshots, i, r.history.snapshots);
  }

  /** A fill keeps the invariant: both snapshots it commits have the size of
      the image it started from. */
  lemma FillKeepsValid(s: EditorState, x: int, y: int)
    requires Valid(s)
    ensures Valid(Fill(s, x, y))
  {
    if FillApplies(s, x, y) {
      var r := Fill(s, x, y);
      CommitKeepsArea(s.history.snapshots, s.history.index, r.history.snapshots);
    }
  }

  /** Undo, redo and the slider keep the invariant: the image they show is a
      snapshot under the enhancer, which keeps its size. */
  lemma ViewChangesKeepValid(s: EditorState, v: real)
    requires Valid(s)
    ensures Valid(Undo(s)) && Valid(Redo(s)) && Valid(SetSaturation(s, v))
  {
    if s.image.Some? {
      assert s.history.snapshots[History.Undo(s.history).index].HasArea();
      assert s.history.snapshots[History.Redo(s.history).index].HasArea();
      assert s.history.snapshots[s.history.index].HasArea();
    }
  }

  /** Every event keeps the invariant: in the normal mode there is no
      selection, and every image the editor holds has pixels. */
  lemma StepPreservesValid(s: EditorState, e: Event)
    requires Valid(s) && WellFormedEvent(e)
    ensures Valid(Step(s, e))
  {
    if e.Press? || e.Drag? || e.Release? {
      PointerKeepsValid(s, e);
    } else if e.RightClick? {
      RightClickKeepsValid(s, e.x, e.y);
    } else if e.ToggleTrim? {
      ToggleTrimmingKeepsValid(s);
    } else if e.UndoKey? || e.RedoKey? || e.SaturationMoved? {
      HistoryKeysKeepValid(s, e);
    } else if e.Open? {
      OpenKeepsValid(s, e.decoded);
    } else {
      SaveAndResizeKeepValid(s, e);
    }
  }

  /** The left button, in either mode, touches only the points and the
      selection. */
  lemma PointerKeepsValid(s: EditorState, e: Event)
    requires Valid(s) && (e.Press? || e.Drag? || e.Release?)
    ensures Valid(Step(s, e))
  {
  }

  /** The right button fills only in the normal mode. */
  lemma RightClickKeepsValid(s: EditorState, x: int, y: int)
    requires Valid(s)
    ensures Valid(Step(s, RightClick(x, y)))
  {
    if s.mode == Normal {
      FillKeepsValid(s, x, y);
    }
  }

  /** Undo, redo and the slider keep the invariant. */
  lemma HistoryKeysKeepValid(s: EditorState, e: Event)
    requires Valid(s) && (e.UndoKey? || e.RedoKey? || e.SaturationMoved?)
    ensures Valid(Step(s, e))
  {
    ViewChangesKeepValid(s, if e.SaturationMoved? then e.value else s.saturation);
  }

  /** Opening a file keeps the invariant: a decoded image has pixels. */
  lemma OpenKeepsValid(s: EditorState, decoded: Option<Image>)
    requires Valid(s) && (decoded.Some? ==> decoded.value.HasArea())
    ensures Valid(Step(s, Open(decoded)))
  {
    if decoded.Some? {
      assert AllHaveArea(History.Reset(decoded.value).snapshots);
    }
  }

  /** Saving and resizing change only the unsaved flag, the canvas size and
      the view. */
  lemma SaveAndResizeKeepValid(s: EditorState, e: Event)
    requires Valid(s) && WellFormedEvent(e) && (e.SaveAs? || e.Resized?)
    ensures Valid(Step(s, e))
  {
  }

  /** The machine as written keeps the well-formedness the handlers rely on
      and the rule that a selection exists only in the trimming mode; what it
      does not keep is the area of the images (`AsWrittenCommitsEmptyCrop`). */
  lemma StepAsWrittenKeepsSelectionRule(s: EditorState, e: Event)
    requires Wf(s) && SelectionOnlyWhenTrimming(s) && WellFormedEvent(e)
    ensures Wf(StepAsWritten(s, e)) && SelectionOnlyWhenTrimming(StepAsWritten(s, e))
  {
  }

  /** After a fill there is nothing to redo. */
  lemma FillThenRedoIsNoOp(s: EditorState, x: int, y: int)
    requires Wf(s) && FillApplies(s, x, y)
    ensures Redo(Fill(s, x, y)) == Fill(s, x, y)
  {
  }

  /** One undo after a fill returns to the image the fill started from, with
      the stored saturation applied to it again. */
  lemma FillThenUndo(s: EditorState, x: int, y: int)
    requires Wf(s) && FillApplies(s, x, y)
    ensures var u := Undo(Fill(s, x, y));
      && u.history.index == s.history.index + 1
      && u.history.Current() == s.image.value
      && u.image == Some(Enhance(s.image.value, s.saturation))
  {
    var r := Fill(s, x, y);
    assert r.history.index == s.history.index + 2 && r.history.CanUndo();
  }

  /** Undo then redo returns to the same snapshot and index, showing it under
      the stored saturation. */
  lemma UndoThenRedo(s: EditorState)
    requires Wf(s) && s.image.Some? && s.history.CanUndo()
    ensures Redo(Undo(s)).history == s.history
    ensures Redo(Undo(s)).image == Some(Enhance(s.history.Current(), s.saturation))
  {
    var u := Undo(s);
    assert u.history.CanRedo();
  }

  /** The slider's effect does not accumulate: the second value alone
      decides the result. */
  lemma SaturationDoesNotCompound(s: EditorState, a: real, b: real)
    requires Wf(s)
    ensures SetSaturation(SetSaturation(s, a), b) == SetSaturation(s, b)
  {
    if s.image.Some? {
      var s1 := SetSaturation(s, a);
      var sb := SetSaturation(s, b);
      var s2 := SetSaturation(s1, b);
      assert s2.image == sb.image;
      if s.canvasW > 1 && s.canvasH > 1 {
        assert s2.view == sb.view;
      }
    }
  }

  /** A release that leaves a selection under 10 pixels discards it, and
      leaving the trimming mode afterwards crops nothing. */
  lemma SmallReleaseCropsNothing(s: EditorState, x: int, y: int)
    requires Wf(s) && s.mode == Trimming && s.trimStart.Some?
    requires MapClick(s, x, y).Some? && TooSmall(s.trimStart.value, MapClick(s, x, y).value)
    ensures var t := EndTrim(s, x, y);
      && t.trimStart.None? && t.trimEnd.None?
      && ToggleTrimmingAsWritten(t).history == s.history && ToggleTrimmingAsWritten(t).image == s.image
      && ToggleTrimming(t).history == s.history && ToggleTrimming(t).image == s.image
  {
  }

  /** As written, a press on the image followed by a release off it skips
      the size test; leaving the trimming mode then commits an empty crop,
      and the redraw after it fails, so the crop stays in the history. */
  lemma AsWrittenCommitsEmptyCrop(s: EditorState, x: int, y: int, x2: int, y2: int)
    requires Valid(s) && s.mode == Trimming && s.image.Some?
    requires MapClick(s, x, y).Some? && MapClick(s, x2, y2).None?
    requires s.canvasW > 1 && s.canvasH > 1
    ensures var r := ToggleTrimmingAsWritten(EndTrim(StartTrim(s, x, y), x2, y2));
      && r.image.Some? && r.image.value.width == 0 && r.image.value.height == 0
      && r.history.Current() == r.image.value
      && |r.history.snapshots| == s.history.index + 3
      && !Valid(r)
  {
    var t := StartTrim(s, x, y);
    assert MapClick(ResetTrim(s), x, y) == MapClick(s, x, y);
    var p := MapClick(s, x, y).value;
    assert t.trimStart == Some(p) && t.trimEnd == Some(p);
    assert MapClick(t, x2, y2) == MapClick(s, x2, y2);
    var u := EndTrim(t, x2, y2);
    assert u == t;
    var r := ToggleTrimmingAsWritten(u);
    assert !r.image.value.HasArea();
  }

  /** With the minimum applied to the crop itself, the same gesture leaves
      the image and the history as they were. */
  lemma GuardedIgnoresEmptySelection(s: EditorState, x: int, y: int, x2: int, y2: int)
    requires Valid(s) && s.mode == Trimming && s.image.Some?
    requires MapClick(s, x, y).Some? && MapClick(s, x2, y2).None?
    ensures var r := ToggleTrimming(EndTrim(StartTrim(s, x, y), x2, y2));
      && r.history == s.history && r.image == s.image && r.mode == Normal
      && r.trimStart.None? && r.trimEnd.None?
  {
    var t := StartTrim(s, x, y);
    assert MapClick(ResetTrim(s), x, y) == MapClick(s, x, y);
    var p := MapClick(s, x, y).value;
    assert TooSmall(p, p);
    assert MapClick(t, x2, y2) == MapClick(s, x2, y2);
  }

  /** Cropping (50,50)-(250,150) from a 300x300 image gives 200x100; the point
      (60,60) becomes (10,10) and the point (10,10) is dropped. */
  lemma CropScenario(s: EditorState)
    requires Wf(s) && s.image.Some? && s.image.value.width == 300 && s.image.value.height == 300
    requires s.trimStart == Some(Point(50, 50)) && s.trimEnd == Some(Point(250, 150))
    requires s.points == [Point(60, 60), Point(10, 10)]
    ensures var r := ExecuteTrimming(s);
      r.image.value.width == 200 && r.image.value.height == 100 && r.points == [Point(10, 10)]
  {
    var b := BoxFromCorners(Point(50, 50), Point(250, 150));
    assert b == Box(50, 50, 250, 150);
    assert Rebase(s.points, b) == [Point(10, 10)] by {
      assert s.points[1..] == [Point(10, 10)];
      assert s.points[1..][1..] == [];
    }
  }

  /** A point on the right edge of the selection survives the crop with an
      x equal to the new width, one past the last column. */
  lemma EdgePointSurvivesCrop(s: EditorState, y: int)
    requires Wf(s) && s.image.Some?
    requires s.trimStart == Some(Point(50, 50)) && s.trimEnd == Some(Point(250, 150))
    requires 50 <= y <= 150 && s.points == [Point(250, y)]
    ensures var r := ExecuteTrimming(s);
      r.points == [Point(r.image.value.width, y - 50)]
  {
    var b := BoxFromCorners(Point(50, 50), Point(250, 150));
    assert b == Box(50, 50, 250, 150);
    assert s.points[1..] == [];
  }

}

=== FILE: Geometry.dfy ===
/** Integer points and crop boxes in original-image space, and the rebasing of
    polygon points onto a cropped image. */
module Geometry {

  /** A pixel position `(x, y)`. */
  datatype Point = Point(x: int, y: int)

  /** A crop box in the imaging library's `(left, top, right, bottom)` order. */
  datatype Box = Box(left: int, top: int, right: int, bottom: int) {

    /** Left edge not right of the right edge, top not below the bottom. */
    predicate Ordered() {
      left <= right && top <= bottom
    }

    function Width(): int {
      right - left
    }

    function Height(): int {
      bottom - top
    }
  }

  function Abs(a: int): int {
    if a < 0 then -a else a
  }

  function Min(a: int, b: int): int {
    if a <= b then a else b
  }

  function Max(a: int, b: int): int {
    if a <= b then b else a
  }

  /** The box spanned by two opposite selection corners, whichever way the
      user dragged. */
  function BoxFromCorners(a: Point, b: Point): (r: Box)
    ensures r.Ordered()
    ensures r.left <= a.x <= r.right && r.left <= b.x <= r.right
    ensures r.top <= a.y <= r.bottom && r.top <= b.y <= r.bottom
    ensures (r.left == a.x || r.left == b.x) && (r.right == a.x || r.right == b.x)
    ensures (r.top == a.y || r.top == b.y) && (r.bottom == a.y || r.bottom == b.y)
    ensures r.Width() == Abs(a.x - b.x) && r.Height() == Abs(a.y - b.y)
  {
    Box(Min(a.x, b.x), Min(a.y, b.y), Max(a.x, b.x), Max(a.y, b.y))
  }

  /** Whether a point survives a crop: the test includes all four edges. */
  predicate InBox(p: Point, b: Box) {
    b.left <= p.x <= b.right && b.top <= p.y <= b.bottom
  }

  /** A point expressed relative to the box's top-left corner. */
  function Shift(p: Point, b: Box): Point {
    Point(p.x - b.left, p.y - b.top)
  }

  /** The polygon points that survive a crop, rebased onto the cropped image,
      in their original order. */
  function Rebase(ps: seq<Point>, b: Box): (r: seq<Point>)
    ensures |r| <= |ps|
    ensures forall q :: q in r ==> 0 <= q.x <= b.Width() && 0 <= q.y <= b.Height()
  {
    if ps == [] then []
    else (if InBox(ps[0], b) then [Shift(ps[0], b)] else []) + Rebase(ps[1..], b)
  }

  /** Rebasing a concatenation rebases each part: the kept points stay in the
      order they were clicked. */
  lemma {:induction false} RebaseAppend(ps: seq<Point>, qs: seq<Point>, b: Box)
    ensures Rebase(ps + qs, b) == Rebase(ps, b) + Rebase(qs, b)
  {
    if ps == [] {
      assert ps + qs == qs;
    } else {
      assert (ps + qs)[0] == ps[0];
      assert (ps + qs)[1..] == ps[1..] + qs;
      RebaseAppend(ps[1..], qs, b);
    }
  }

  /** A rebased point is exactly the shift of some original point inside the
      box, and every original point inside the box appears shifted. */
  lemma {:induction false} RebaseMembership(ps: seq<Point>, b: Box, q: Point)
    ensures q in Rebase(ps, b) <==> exists i :: 0 <= i < |ps| && InBox(ps[i], b) && q == Shift(ps[i], b)
  {
    if ps != [] {
      RebaseMembership(ps[1..], b, q);
      if q in Rebase(ps[1..], b) {
        var i :| 0 <= i < |ps[1..]| && InBox(ps[1..][i], b) && q == Shift(ps[1..][i], b);
        assert ps[i + 1] == ps[1..][i];
      }
      if exists i :: 0 <= i < |ps| && InBox(ps[i], b) && q == Shift(ps[i], b) {
        var i :| 0 <= i < |ps| && InBox(ps[i], b) && q == Shift(ps[i], b);
        if i > 0 {
          assert ps[1..][i - 1] == ps[i];
        }
      }
    }
  }

  /** No point is lost exactly when every point lies inside the box. */
  lemma {:induction false} RebaseKeepsAllIff(ps: seq<Point>, b: Box)
    ensures |Rebase(ps, b)| == |ps| <==> forall i :: 0 <= i < |ps| ==> InBox(ps[i], b)
  {
    if ps != [] {
      RebaseKeepsAllIff(ps[1..], b);
      if forall i :: 0 <= i < |ps| ==> InBox(ps[i], b) {
        assert forall i :: 0 <= i < |ps[1..]| ==> InBox(ps[1..][i], b) by {
          forall i | 0 <= i < |ps[1..]| ensures InBox(ps[1..][i], b) {
            assert ps[1..][i] == ps[i + 1];
          }
        }
      }
      if |Rebase(ps, b)| == |ps| {
        forall i | 0 <= i < |ps| ensures InBox(ps[i], b) {
          if i > 0 {
            assert ps[i] == ps[1..][i - 1];
          }
        }
      }
    }
  }

  /** The point-adjustment loop of the crop: walks the points once, keeping
      and shifting those inside the box. */
  method AdjustPoints(points: seq<Point>, b: Box) returns (adjusted: seq<Point>)
    ensures adjusted == Rebase(points, b)
  {
    adjusted := [];
    var i := 0;
    while i < |points|
      invariant 0 <= i <= |points|
      invariant adjusted == Rebase(points[..i], b)
    {
      var p := points[i];
      assert points[..i + 1] == points[..i] + [p];
      RebaseAppend(points[..i], [p], b);
      if InBox(p, b) {
        adjusted := adjusted + [Shift(p, b)];
      }
      i := i + 1;
    }
    assert points[..i] == points;
  }

}

=== FILE: History.dfy ===
/** The linear undo history: a sequence of snapshots and the index of the
    current one. Committing after an undo throws the redo branch away. */
module History {

  datatype Stack<T> = Stack(snapshots: seq<T>, index: int) {

    /** The index names an existing snapshot. */
    predicate Valid() {
      0 <= index < |snapshots|
    }

    /** The index may also sit just before the first snapshot, as it does
        before any image is opened. */
    predicate Pushable() {
      -1 <= index < |snapshots|
    }

    function Current(): T
      requires Valid()
    {
      snapshots[index]
    }

    predicate CanUndo() {
      index > 0
    }

    predicate CanRedo() {
      index < |snapshots| - 1
    }
  }

  /** The history of an editor with no image: empty, index -1. */
  function Empty<T>(): (r: Stack<T>)
    ensures r.Pushable() && !r.Valid() && |r.snapshots| == 0
  {
    Stack([], -1)
  }

  /** Opening a file: the history becomes the single opened image. */
  function Reset<T>(x: T): (r: Stack<T>)
    ensures r.Valid() && r.Current() == x
    ensures !r.CanUndo() && !r.CanRedo()
  {
    Stack([x], 0)
  }

  /** Committing a snapshot: everything after the current index is dropped,
      the snapshot is appended and becomes current. */
  function Push<T>(h: Stack<T>, x: T): (r: Stack<T>)
    requires h.Pushable()
    ensures r.Valid() && r.Current() == x
    ensures |r.snapshots| == h.index + 2 && r.index == h.index + 1
    ensures r.snapshots[..h.index + 1] == h.snapshots[..h.index + 1]
    ensures !r.CanRedo()
  {
    Stack(h.snapshots[..h.index + 1] + [x], h.index + 1)
  }

  /** Undo moves back one snapshot, and does nothing at the first. */
  function Undo<T>(h: Stack<T>): (r: Stack<T>)
    requires h.Valid()
    ensures r.Valid() && r.snapshots == h.snapshots
    ensures h.CanUndo() ==> r.index == h.index - 1
    ensures !h.CanUndo() ==> r == h
  {
    if h.index > 0 then h.(index := h.index - 1) else h
  }

  /** Redo moves forward one snapshot, and does nothing at the last. */
  function Redo<T>(h: Stack<T>): (r: Stack<T>)
    requires h.Valid()
    ensures r.Valid() && r.snapshots == h.snapshots
    ensures h.CanRedo() ==> r.index == h.index + 1
    ensures !h.CanRedo() ==> r == h
  {
    if h.index < |h.snapshots| - 1 then h.(index := h.index + 1) else h
  }

  /** A sequence of commits, one after another. */
  function PushAll<T>(h: Stack<T>, xs: seq<T>): (r: Stack<T>)
    requires h.Pushable()
    ensures r.Pushable()
    ensures |xs| > 0 ==> r.Valid()
    decreases |xs|
  {
    if xs == [] then h else PushAll(Push(h, xs[0]), xs[1..])
  }

  /** After a non-empty run of commits the history is the kept prefix
      followed by the committed snapshots, and the last of them is current. */
  lemma {:induction false} PushAllShape<T>(h: Stack<T>, xs: seq<T>)
    requires h.Pushable()
    ensures |xs| > 0 ==> PushAll(h, xs).snapshots == h.snapshots[..h.index + 1] + xs
    ensures PushAll(h, xs).index == h.index + |xs|
    decreases |xs|
  {
    if xs != [] {
      var h1 := Push(h, xs[0]);
      PushAllShape(h1, xs[1..]);
      var pre := h.snapshots[..h.index + 1];
      assert PushAll(h, xs) == PushAll(h1, xs[1..]);
      assert h1.snapshots == pre + [xs[0]];
      assert h1.snapshots[..h1.index + 1] == h1.snapshots;
      assert [xs[0]] + xs[1..] == xs;
      assert pre + [xs[0]] + xs[1..] == pre + xs;
    }
  }

  /** One undo after a run of commits shows the snapshot that was current
      before the last commit. */
  lemma UndoAfterPushes<T>(h: Stack<T>, xs: seq<T>)
    requires h.Valid() && |xs| > 0
    ensures Undo(PushAll(h, xs)).Current() == if |xs| == 1 then h.Current() else xs[|xs| - 2]
  {
    PushAllShape(h, xs);
    var r := PushAll(h, xs);
    var pre := h.snapshots[..h.index + 1];
    assert r.snapshots == pre + xs;
    assert Undo(r).index == h.index + |xs| - 1;
    if |xs| == 1 {
      assert r.snapshots[h.index] == pre[h.index];
    } else {
      assert r.snapshots[h.index + |xs| - 1] == xs[|xs| - 2];
    }
  }

  /** A commit leaves nothing to redo. */
  lemma RedoAfterPushIsNoOp<T>(h: Stack<T>, x: T)
    requires h.Pushable()
    ensures Redo(Push(h, x)) == Push(h, x)
  {
  }

  /** Undo and redo cancel out whenever the first of them moved. */
  lemma UndoRedoInverse<T>(h: Stack<T>)
    requires h.Valid()
    ensures h.CanUndo() ==> Redo(Undo(h)) == h
    ensures h.CanRedo() ==> Undo(Redo(h)) == h
  {
  }

  /** Two commits bracketing one edit: the pre-edit and post-edit snapshots
      follow the kept prefix, the index is on the post-edit one, and one undo
      reaches the pre-edit one. */
  lemma CommitPair<T>(h: Stack<T>, pre: T, post: T)
    requires h.Valid()
    ensures var r := Push(Push(h, pre), post);
      && r.snapshots == h.snapshots[..h.index + 1] + [pre, post]
      && r.index == h.index + 2
      && Undo(r).Current() == pre
      && Redo(r) == r
  {
    var r := Push(Push(h, pre), post);
    assert r.snapshots == h.snapshots[..h.index + 1] + [pre] + [post];
  }

}

=== FILE: Imaging.dfy ===
/** The image as the editor sees it: a size, a pixel format and opaque pixel
    content. The imaging library's pixel operations are not modelled; each
    one leaves a term recording which call produced the pixels, and the only
    facts assumed about it are the sizes and formats stated below. */
module Imaging {
  import opened Geometry

  /** The pixel formats the save path distinguishes. A mode is read from the
      library's mode name through `ModeOf`, so `OtherMode` never carries the
      names "RGB" or "RGBA". */
  datatype PixelMode = Rgb | Rgba | OtherMode(name: string)

  /** The mode for a library mode name; the save path compares the name with
      "RGBA". */
  function ModeOf(name: string): (m: PixelMode)
    ensures m == Rgba <==> name == "RGBA"
    ensures m == Rgb <==> name == "RGB"
    ensures m.OtherMode? ==> m.name == name && name != "RGB" && name != "RGBA"
  {
    if name == "RGBA" then Rgba else if name == "RGB" then Rgb else OtherMode(name)
  }

  /** Opaque pixel content, recorded as the library call that produced it. */
  datatype Pixels =
    | Decoded(source: nat)
    | Polygon(base: Pixels, outline: seq<Point>, color: string)
    | Cropped(base: Pixels, box: Box)
    | Saturated(base: Pixels, factor: real)
    | Flattened(base: Pixels)

  datatype Image = Image(width: nat, height: nat, mode: PixelMode, pixels: Pixels) {

    /** Both dimensions non-zero: the display code divides by them. */
    predicate HasArea() {
      width > 0 && height > 0
    }
  }

  /** Drawing a filled polygon onto the image keeps its size and format. */
  function FillPolygon(img: Image, outline: seq<Point>, color: string): (r: Image)
    ensures r.width == img.width && r.height == img.height && r.mode == img.mode
  {
    img.(pixels := Polygon(img.pixels, outline, color))
  }

  /** Cropping yields a `(right-left) x (bottom-top)` image of the same format. */
  function Crop(img: Image, b: Box): (r: Image)
    requires b.Ordered()
    ensures r.width == b.Width() && r.height == b.Height() && r.mode == img.mode
  {
    Image(b.Width(), b.Height(), img.mode, Cropped(img.pixels, b))
  }

  /** Colour-saturation enhancement; the factor 1.0 returns the image as it
      was, which is what the enhancer promises for that factor. */
  function Enhance(img: Image, factor: real): (r: Image)
    ensures r.width == img.width && r.height == img.height && r.mode == img.mode
    ensures factor == 1.0 ==> r == img
  {
    if factor == 1.0 then img else img.(pixels := Saturated(img.pixels, factor))
  }

  /** Dropping the alpha channel before a JPEG write. */
  function ToRgb(img: Image): (r: Image)
    ensures r.width == img.width && r.height == img.height && r.mode == Rgb
  {
    Image(img.width, img.height, Rgb, Flattened(img.pixels))
  }

}

=== FILE: Optional.dfy ===
/** The optional value used wherever the editor holds `None` or a value. */
module Optional {

  datatype Option<+T> = None | Some(value: T)

}

=== FILE: SaveTarget.dfy ===
/** Choosing how to write the image from the path the user picked. The
    extension of the lower-cased path selects the format; the file is written
    under the path as typed. */
module SaveTarget {
  import opened Optional
  import opened Imaging

  /** The encoder settings passed to the imaging library. */
  datatype Format =
    | Png(compressLevel: Option<nat>)   // None: the library's default level
    | Jpeg(quality: int)
    | Heic

  /** What a save does: write a (possibly flattened) image somewhere, or
      nothing because the JPEG quality prompt was cancelled. */
  datatype Plan =
    | Write(path: string, format: Format, flattenAlpha: bool)
    | QualityCancelled

  function LowerChar(c: char): (d: char)
    ensures 'A' <= c <= 'Z' ==> d as int == c as int + 32
    ensures !('A' <= c <= 'Z') ==> d == c
  {
    if 'A' <= c <= 'Z' then (c as int + 32) as char else c
  }

  /** Lower-casing, for the ASCII letters. */
  function Lower(s: string): (r: string)
    ensures |r| == |s|
    ensures forall i :: 0 <= i < |s| ==> r[i] == LowerChar(s[i])
  {
    seq(|s|, i requires 0 <= i < |s| => LowerChar(s[i]))
  }

  predicate EndsWith(s: string, suffix: string) {
    |suffix| <= |s| && s[|s| - |suffix|..] == suffix
  }

  /** The extension tests of the save routine, on the lower-cased path. */
  predicate IsPngName(path: string) {
    EndsWith(Lower(path), ".png")
  }

  predicate IsJpegName(path: string) {
    EndsWith(Lower(path), ".jpg") || EndsWith(Lower(path), ".jpeg")
  }

  predicate IsHeicName(path: string) {
    EndsWith(Lower(path), ".heic")
  }

  /** The save plan for a path, the image's pixel mode and the answer to the
      JPEG quality prompt (asked only for JPEG names; 1 to 100, or None when
      cancelled). */
  function Dispatch(path: string, mode: PixelMode, quality: Option<int>): (r: Plan)
    requires quality.Some? ==> 1 <= quality.value <= 100
    ensures r == QualityCancelled <==> IsJpegName(path) && !IsPngName(path) && quality.None?
    ensures r.Write? && r.format.Png? && r.path == path <==> IsPngName(path)
    ensures r.Write? && r.format.Jpeg? <==> !IsPngName(path) && IsJpegName(path) && quality.Some?
    ensures r.Write? && r.format.Jpeg? ==> r.path == path && r.format.quality == quality.value && (r.flattenAlpha <==> mode == Rgba)
    ensures r.Write? && !r.format.Jpeg? ==> !r.flattenAlpha
    ensures r.Write? && r.format == Heic <==> !IsPngName(path) && !IsJpegName(path) && IsHeicName(path)
    ensures r.Write? && r.path != path <==> !IsPngName(path) && !IsJpegName(path) && !IsHeicName(path)
    ensures r.Write? && r.path != path ==> r.path == path + ".png" && r.format == Png(None)
    ensures r.Write? && r.path == path && r.format.Png? ==> r.format.compressLevel == Some(6)
  {
    if IsPngName(path) then Write(path, Png(Some(6)), false)
    else if IsJpegName(path) then
      match quality
      case None => QualityCancelled
      case Some(q) => Write(path, Jpeg(q), mode == Rgba)
    else if IsHeicName(path) then Write(path, Heic, false)
    else Write(path + ".png", Png(None), false)
  }

  /** The image a write hands to the encoder: the RGB conversion when the
      plan flattens the alpha channel, otherwise the image itself. */
  function Written(img: Image, plan: Plan): (out: Image)
    requires plan.Write?
    ensures out.width == img.width && out.height == img.height
    ensures plan.flattenAlpha ==> out.mode == Rgb
    ensures !plan.flattenAlpha ==> out == img
  {
    if plan.flattenAlpha then ToRgb(img) else img
  }

  /** The JPEG encoder never receives an image in mode RGBA, and every other
      format receives the image unchanged. Other modes with an alpha
      channel are not converted. */
  lemma JpegWriteIsNeverRgba(path: string, img: Image, quality: Option<int>)
    requires quality.Some? ==> 1 <= quality.value <= 100
    ensures var plan := Dispatch(path, img.mode, quality);
      && (plan.Write? && plan.format.Jpeg? ==> Written(img, plan).mode != Rgba)
      && (plan.Write? && !plan.format.Jpeg? ==> Written(img, plan) == img)
  {
  }

  /** Lower-casing distributes over concatenation. */
  lemma LowerAppend(a: string, b: string)
    ensures Lower(a + b) == Lower(a) + Lower(b)
  {
  }

  /** The extension test ignores the letter case of the path. */
  lemma DispatchIgnoresCase(p1: string, p2: string, mode: PixelMode, quality: Option<int>)
    requires Lower(p1) == Lower(p2)
    requires quality.Some? ==> 1 <= quality.value <= 100
    ensures Dispatch(p1, mode, quality).QualityCancelled? == Dispatch(p2, mode, quality).QualityCancelled?
    ensures Dispatch(p1, mode, quality).Write? ==>
      Dispatch(p1, mode, quality).format == Dispatch(p2, mode, quality).format
  {
  }

  /** The fallback name is itself a PNG name: saving again under the name
      actually written writes PNG there at level 6. */
  lemma FallbackNameIsPng(path: string, mode: PixelMode, quality: Option<int>)
    requires quality.Some? ==> 1 <= quality.value <= 100
    requires !IsPngName(path) && !IsJpegName(path) && !IsHeicName(path)
    ensures var target := Dispatch(path, mode, quality).path;
      Dispatch(target, mode, quality) == Write(target, Png(Some(6)), false)
  {
    var target := path + ".png";
    LowerAppend(path, ".png");
    assert Lower(".png") == ".png";
    assert Lower(target)[|Lower(target)| - 4..] == ".png";
  }

  /** An upper-case JPEG name with a quality answer writes JPEG under the
      name as typed; an RGBA image is flattened first. */
  lemma UpperCaseJpegScenario()
    ensures Dispatch("photo.JPG", Rgba, Some(80)) == Write("photo.JPG", Jpeg(80), true)
    ensures Dispatch("photo.JPG", Rgb, None) == QualityCancelled
  {
    var low := Lower("photo.JPG");
    assert low == "photo.jpg";
    assert low[|low| - 4..] == ".jpg";
    assert low[|low| - 4..] != ".png";
  }

  /** A name without a known extension gets ".png" appended. */
  lemma UnknownExtensionScenario()
    ensures Dispatch("notes.txt", Rgb, None) == Write("notes.txt.png", Png(None), false)
  {
    var low := Lower("notes.txt");
    assert low == "notes.txt";
    assert low[|low| - 4..] == ".txt";
    assert low[|low| - 5..] == "s.txt";
  }

}
